=== FILE: README.md ===
# Market-data view state, modelled in Dafny

This project models the state a small market-data front end keeps while it
consumes a venue's combined trade and order-book stream:

- **the subscription** (`hooks/useBinanceSocket.ts`): the stream URL, the
  endpoint list, the reconnect policy (exponential backoff capped at 10 s,
  a move to the next endpoint on every third failure, no reconnect once the
  subscription is torn down), decoding of an already-parsed frame into a
  trade tick or an order-book delta, and the single-slot mailbox per channel
  that an animation-frame callback drains (module `BinanceSocket`, class
  `Socket`);
- **the order-book ledger** shared by both book views: a price-to-quantity
  map per side where quantity 0 deletes a level, sorted and trimmed to the
  25 best levels with running totals (module `Ledger`);
- **the tabular order book** (`components/OrderBook.tsx`): its ledger, its
  100 ms render gate, and a render's rows, best bid, best ask and spread
  (module `OrderBook`, class `OrderBookView`);
- **the depth chart** (`components/DepthVisualizer.tsx`): its own ledger, its
  120 ms render gate, and the depth snapshot with the shared bar scale
  (module `DepthVisualizer`, class `DepthView`);
- **the render gate** shared in shape by both views (module `Throttle`);
- **the trade tape** (`components/RecentTrades.tsx`): newest first, no
  repeated trade id, at most 50 trades, and the highlighted trade id
  (module `RecentTrades`, class `TradeTape`).

Prices and quantities are integers (fixed-point ticks). Parsing a decimal
string is a parameter `num: string -> int`; the clock is a parameter `now`;
every socket callback, timer firing and animation-frame callback is a
method call on the object that owns the state it changes. Each such method
is specified against a pure function (`Ledger.Applied`, `Throttle.Arrive`,
`BinanceSocket.Offer`, `BinanceSocket.Fail`, `RecentTrades.Record`, ...)
whose properties are proved as lemmas.

Three behaviours of the code worth noting:

- the effect's cleanup (`hooks/useBinanceSocket.ts:147-152`) does not clear
  a pending reconnect timer, so a reconnect scheduled before teardown still
  runs `connect()` afterwards (`Socket.Teardown` keeps `reconnect`,
  `Socket.OnReconnectTimer` can then open a socket);
- teardown cancels only a frame that is pending, and the reference keeps the
  cancelled id, so on a channel whose frame was pending at teardown later
  arrivals are still buffered but never published
  (`BinanceSocket.CancelledStaysSilent`); a channel with no pending frame
  at teardown still requests and publishes frames for later arrivals;
- the deferred render is cleared and re-armed on every early arrival, but
  always for the same deadline, one window after the last render
  (`Throttle.BurstCollapses`).

## Model

| member | source | states |
|---|---|---|
| Ledger.LastWrite | components/OrderBook.tsx:13-18 | none exactly when no pair of the delta names the price; otherwise the quantity of the last pair that names it |
| Ledger.Put | components/OrderBook.tsx:13-18 | one pair: quantity 0 removes the price, any other quantity stores it, every other price keeps its presence and quantity |
| Ledger.AppliedAt | components/OrderBook.tsx:11-19 | `Applied` (the ledger after the whole loop): after a delta, a price not named keeps its entry, a price last written with 0 is absent, a price last written with q != 0 maps to q (last write wins) |
| Ledger.DeleteAbsentIsNoop | components/OrderBook.tsx:13-15 | deleting a price that is not stored leaves the side unchanged |
| Ledger.AppliedKeepsNoZeroLevels | components/OrderBook.tsx:14-18 | a delta never leaves a level with quantity 0 stored |
| Ledger.AppliedKeepsNonNegative | components/OrderBook.tsx:11-20 | non-negative stored quantities stay non-negative under a delta with non-negative quantities |
| Ledger.Insert | components/OrderBook.tsx:23 | inserting one level into a ranked list adds exactly that level (multiset) |
| Ledger.Rank | components/OrderBook.tsx:23 | the comparator sort is a permutation of its input |
| Ledger.RankRanked | components/OrderBook.tsx:23 | sorted output is ordered by the side's comparator: bids descending, asks ascending |
| Ledger.RankStrictlyRanked | components/OrderBook.tsx:23 | with distinct prices (map keys) the order is strict |
| Ledger.Top | components/OrderBook.tsx:24 | the slice has min(limit, n) elements and is a prefix of its input |
| Ledger.Entries | components/OrderBook.tsx:63 | the entry list holds every stored level exactly once and nothing else |
| Ledger.TopOfRankedEntries | components/OrderBook.tsx:22-24 | sorting a ledger's entries and keeping `limit` gives its best levels: right count, stored quantities, strictly ordered, every level left out worse than every level shown |
| Ledger.TopLevelsBest | components/OrderBook.tsx:72-73 | the first row is empty exactly when the side is empty, and otherwise it is the best stored price (highest bid, lowest ask) |
| Ledger.TopLevelsUnique | components/OrderBook.tsx:22-24 | the best levels of a ledger are unique, so the rows do not depend on the order the entries are listed in |
| Ledger.TopLevelsPrefix | components/OrderBook.tsx:22-24 | two best-level lists of the same ledger agree on every prefix |
| Ledger.QtySumMonotone | components/OrderBook.tsx:27-30 | with non-negative quantities a longer prefix never has a smaller total |
| Ledger.RunningTotalsOrdered | components/DepthVisualizer.tsx:24-26 | with non-negative quantities running totals lie between 0 and the grand total, in order |
| Ledger.TopRankNonNegative | components/DepthVisualizer.tsx:19-20 | sorting and trimming keep quantities non-negative |
| Throttle.Arrive | components/OrderBook.tsx:46-57 | a render happens exactly when at least one window has passed, then records now; otherwise no render is counted, the last render time stays, and the pending timer is due one window after the last render and strictly after now |
| Throttle.Fire | components/OrderBook.tsx:53-56 | the deferred render records its firing time, clears the timer and counts one render |
| Throttle.Cancel | components/OrderBook.tsx:60 | unmount clears the pending timer and changes nothing else |
| Throttle.ArriveKeepsBounded | components/OrderBook.tsx:47-57 | an arrival keeps a pending deadline within one window of the last render |
| Throttle.FireKeepsBounded | components/OrderBook.tsx:53-60 | firing and cancelling keep the staleness bound |
| Throttle.ArriveAllKeepsBounded | components/OrderBook.tsx:42-58 | any run of arrivals keeps the staleness bound |
| Throttle.BurstCollapses | components/DepthVisualizer.tsx:43-53 | arrivals within one window of the last render cause no render and one timer due when that window closes; its firing is the burst's single render |
| OrderBook.SortAndCumulate | components/OrderBook.tsx:22-33 | min(limit, n) rows, the side's best-first prefix of the sorted entries, total i is the sum of quantities 0..i, maxTotal is the last total or 0, totals non-decreasing for non-negative quantities |
| OrderBook.Spread | components/OrderBook.tsx:74 | a missing (0) best price gives spread 0; otherwise best bid plus spread is best ask |
| OrderBook.TwoBidsScenario | components/OrderBook.tsx:62-65 | an empty book given bids 100 x 2 and 99 x 1 shows exactly those levels, 100 first, with running totals 2 and 3 |
| OrderBook.BestPriceIsBest | components/OrderBook.tsx:72-73 | `BestPrice` of a side's best rows is 0 for an empty side, and otherwise the highest stored bid or the lowest stored ask |
| OrderBook.SetThenDeleteScenario | components/OrderBook.tsx:13-15 | a price set and then deleted is absent |
| OrderBook.OrderBookView.constructor | components/OrderBook.tsx:37-40 | empty ledger, last render 0, no timer |
| OrderBook.OrderBookView.ApplyDelta | components/OrderBook.tsx:11-20 | the named side becomes `Applied` of its old contents and the delta; the other side and the gate are unchanged |
| OrderBook.OrderBookView.OnDelta | components/OrderBook.tsx:42-58 | both sides take the delta, the gate takes one 100 ms `Arrive` step, no zero level is stored and the staleness bound holds |
| OrderBook.OrderBookView.OnRenderTimer | components/OrderBook.tsx:53-56 | the gate takes one `Fire` step; the ledger is unchanged |
| OrderBook.OrderBookView.Teardown | components/OrderBook.tsx:60 | the gate takes one `Cancel` step; the ledger is unchanged |
| OrderBook.OrderBookView.Snapshot | components/OrderBook.tsx:62-74 | each side's rows are its 25 best levels with running totals; best bid is the highest stored bid, best ask the lowest stored ask (0 when empty); the spread follows `Spread` and is 0 when a side is empty |
| DepthVisualizer.Scale | components/DepthVisualizer.tsx:27 | the scale is never 0; it is the larger side total when that is not 0 and exactly 1 when it is 0; with non-negative totals it is at least 1 and bounds both totals |
| DepthVisualizer.RunningTotalsBounded | components/DepthVisualizer.tsx:24-27 | running totals of non-negative quantities rise from 0 and stay within any bound of the grand total |
| DepthVisualizer.Cumulative | components/DepthVisualizer.tsx:21-26 | one running total per level, entry i the sum of quantities 0..i, the last one the side total |
| DepthVisualizer.SideDepth | components/DepthVisualizer.tsx:19-26 | one side: its 25 best levels, their running totals, the last total equal to the side total, non-negative levels for a non-negative ledger |
| DepthVisualizer.BuildDepth | components/DepthVisualizer.tsx:18-29 | each side is its 25 best levels, the cumulative arrays match them (the running sum restarts per side), max is `Scale` of the side totals; with non-negative ledgers every cumulative value lies in 0..max and they are non-decreasing |
| DepthVisualizer.TopLevelsNonNegative | components/DepthVisualizer.tsx:19-20 | the levels shown from a ledger without negative quantities have none |
| DepthVisualizer.DepthView.constructor | components/DepthVisualizer.tsx:33-36 | empty ledger, last render 0, no timer |
| DepthVisualizer.DepthView.ApplyDelta | components/DepthVisualizer.tsx:10-16 | same semantics as the order book's: `Applied` on the named side, the other side and the gate unchanged |
| DepthVisualizer.DepthView.OnDelta | components/DepthVisualizer.tsx:38-54 | both sides take the delta and the gate takes one 120 ms `Arrive` step |
| DepthVisualizer.DepthView.OnRenderTimer | components/DepthVisualizer.tsx:49-52 | the gate takes one `Fire` step; the ledger is unchanged |
| DepthVisualizer.DepthView.Teardown | components/DepthVisualizer.tsx:56 | the gate takes one `Cancel` step; the ledger is unchanged |
| DepthVisualizer.DepthView.Snapshot | components/DepthVisualizer.tsx:58 | the snapshot is `BuildDepth` of the current ledger, which it does not change |
| RecentTrades.Record | components/RecentTrades.tsx:12-17 | at most 50 trades; a known id leaves the tape cut to 50 (unchanged when it holds at most 50); a new trade goes first, followed by the older trades in order, the oldest dropped past 50 |
| RecentTrades.RecordKeepsDistinct | components/RecentTrades.tsx:14-15 | a tape without repeated ids keeps that property |
| RecentTrades.RecordedIsShown | components/RecentTrades.tsx:14-16 | on a tape of at most 50, the recorded trade's id is on the tape afterwards (`HasId` is the `find` at line 14) |
| RecentTrades.RecordTwice | components/RecentTrades.tsx:14-15 | recording the same trade twice in a row equals recording it once |
| RecentTrades.TapeInvariant | components/RecentTrades.tsx:12-17 | for any arrival sequence the tape holds at most 50 trades, no repeated id, and the latest trade |
| RecentTrades.TradeTape.constructor | components/RecentTrades.tsx:7-8 | empty tape, no highlight |
| RecentTrades.TradeTape.OnTrade | components/RecentTrades.tsx:10-18 | the tape takes one `Record` step, the highlight is the trade's id (duplicates included), and the tape invariant holds |
| BinanceSocket.Lower | hooks/useBinanceSocket.ts:42 | same length, each letter lower-cased, no upper-case letter left |
| BinanceSocket.SubscriptionSymbol | hooks/useBinanceSocket.ts:42 | a given symbol is subscribed as `Lower` of it (same length, each letter lower-cased); the result never has an upper-case letter |
| BinanceSocket.DefaultSymbolIsLowered | hooks/useBinanceSocket.ts:42 | with no symbol option the subscription is for `btcusdt` |
| BinanceSocket.StreamUrlDeterminesSymbol | hooks/useBinanceSocket.ts:70 | `StreamUrl` on one endpoint is injective in the symbol: two subscriptions share a URL only when their symbols are equal |
| BinanceSocket.Endpoints | hooks/useBinanceSocket.ts:53-62 | the configured base, or the default `wss://stream.binance.com:9443/stream` when unset, followed by the seven fallback hosts in source order; none empty, so `filter(Boolean)` removes nothing |
| BinanceSocket.ActiveEndpoint | hooks/useBinanceSocket.ts:69 | the index wraps, so the chosen base is always one of the endpoints, and an index within the list picks that entry |
| BinanceSocket.FailoverReaches | hooks/useBinanceSocket.ts:137-139 | from a fresh counter, after 3k failures the next connection uses the k-th endpoint (the `Fail` rotation composed with the modular choice of line 69) |
| BinanceSocket.Pow2Monotone | hooks/useBinanceSocket.ts:137 | powers of two grow with the exponent |
| BinanceSocket.Backoff | hooks/useBinanceSocket.ts:137 | the reconnect delay always lies in 500..10000 ms |
| BinanceSocket.BackoffSequence | hooks/useBinanceSocket.ts:137 | delays 500, 1000, 2000, 4000, 8000, then 10000 from the sixth failure on |
| BinanceSocket.BackoffMonotone | hooks/useBinanceSocket.ts:137 | more failures never shorten the delay |
| BinanceSocket.FailureRun | hooks/useBinanceSocket.ts:137-140 | `Fail` is one close: n failures add n to the counter and move the endpoint once per multiple of 3 crossed (n / 3 times from a fresh counter) |
| BinanceSocket.DecodeLevels | hooks/useBinanceSocket.ts:108-109 | same length and order as the wire list, each pair parsed field by field |
| BinanceSocket.Decode | hooks/useBinanceSocket.ts:86-119 | a trade exactly for tag `aggTrade`, a delta exactly for `depthUpdate`, ignored otherwise; trade id, time, price, quantity, and taker side sell iff the buyer was the maker; the delta's bids and asks are `DecodeLevels` of `b` and `a` (same length, same order), a missing list (`OrEmpty`) decoding as empty |
| BinanceSocket.CombinedDecodesAsBare | hooks/useBinanceSocket.ts:87 | `PayloadOf` unwraps `data`: a combined-stream wrapper decodes as its `data` |
| BinanceSocket.TradeRoundTrip | hooks/useBinanceSocket.ts:89-97 | decoding the venue's encoding of a trade gives the trade back when parsing undoes printing |
| BinanceSocket.LevelsRoundTrip | hooks/useBinanceSocket.ts:108-109 | decoding an encoded level list gives the list back |
| BinanceSocket.DepthRoundTrip | hooks/useBinanceSocket.ts:105-111 | decoding an encoded depth update gives the delta back, same levels in the same order |
| BinanceSocket.Offer | hooks/useBinanceSocket.ts:98-104 | an arrival overwrites the slot and requests a frame only when none is requested |
| BinanceSocket.Drain | hooks/useBinanceSocket.ts:100-102 | the frame callback clears the frame reference and publishes the buffered value |
| BinanceSocket.CancelFrame | hooks/useBinanceSocket.ts:149-150 | teardown cancels a requested frame and keeps the buffer |
| BinanceSocket.BurstPublishesLatest | hooks/useBinanceSocket.ts:112-118 | any burst on a live channel leaves one frame requested, which publishes the last arrival only |
| BinanceSocket.CancelledStaysSilent | hooks/useBinanceSocket.ts:113-118 | after a cancelled frame no later arrival requests a frame |
| BinanceSocket.Socket.constructor | hooks/useBinanceSocket.ts:41-73 | lower-cased symbol, endpoint list, zero counters, first socket opened on endpoint 0 with its stream URL |
| BinanceSocket.Socket.OnReconnectTimer | hooks/useBinanceSocket.ts:68-73 | `connect()` on the active endpoint with the current counters: new URL, status connecting, one more socket |
| BinanceSocket.Socket.OnOpen | hooks/useBinanceSocket.ts:75-82 | ignored after teardown; otherwise connected, retry 0, status connected |
| BinanceSocket.Socket.OnError | hooks/useBinanceSocket.ts:125-129 | status error; counters and everything else unchanged |
| BinanceSocket.Socket.OnClose | hooks/useBinanceSocket.ts:131-142 | disconnected with the close code and reason (`n/a` when empty); after teardown nothing else; otherwise one `Fail` step and a reconnect after `Backoff` of the count before the increment |
| BinanceSocket.Socket.OnMessage | hooks/useBinanceSocket.ts:84-123 | a decoded trade or delta is `Offer`ed to its channel; anything else changes nothing |
| BinanceSocket.Socket.OnTradeFrame | hooks/useBinanceSocket.ts:100-103 | the trade channel is `Drain`ed and its buffered trade published |
| BinanceSocket.Socket.OnDepthFrame | hooks/useBinanceSocket.ts:114-117 | the depth channel is `Drain`ed and its buffered delta published |
| BinanceSocket.Socket.Teardown | hooks/useBinanceSocket.ts:147-152 | closed is set and requested frames are cancelled; counters, status and a pending reconnect are unchanged |

## Left out

- Rendering: JSX, `toFixed` formatting, bar-width percentages and CSS are presentation.
- `pages/`, `contexts/BinanceContext.tsx`: composition and a React context wrapper; they are not part of this model.
- Transport and foreign calls: the WebSocket itself, `JSON.parse` (frames are already-parsed records, a parse error is simply no call of `OnMessage`), `console` logging, and `process.env` (a parameter `envBase`, the empty string standing for unset).
- Time and concurrency: `Date.now`, `setTimeout`, `clearTimeout`, `requestAnimationFrame` and `cancelAnimationFrame` are explicit events and a `now` parameter; the 650 ms highlight-clearing timer of the trade tape is not modelled.
- React mechanics: which render's `useMemo` sees which ledger contents is not modelled; `Snapshot` reads the ledger as it is when called. Re-subscribing when the `symbol` option changes is not modelled: `Socket` is one run of the effect.
- Numbers: `Number(...)` is the parameter `num`; IEEE-754 arithmetic, NaN and non-integer prices are not modelled (integer ticks). The spread rule's truthiness test is kept: a best price of 0 counts as missing.
- Ledger.Entries: `Array.from(map.entries())` lists in insertion order; the model lists the entries in an unspecified order and proves (`Ledger.TopLevelsUnique`) that the displayed rows do not depend on it.
- Ledger.Rank: the in-place sort of the fresh entry array is modelled on sequences by a stable insertion sort; the array the source sorts is a private copy, so no aliasing is lost.
- OrderBook.OrderBookView.OnRenderTimer, DepthVisualizer.DepthView.OnRenderTimer: after firing, the source leaves the spent timer id in `timerRef` (clearing it later is a no-op; components/OrderBook.tsx:53-56, components/DepthVisualizer.tsx:49-52); the model records no pending timer.
- BinanceSocket.Lower: ASCII letters only, not full Unicode `toLowerCase`.
- BinanceSocket.Decode: a payload field of the wrong JSON type (for example a numeric `E` given as a string) is not modelled; the record's fields carry their expected types.
- BinanceSocket.Socket.constructor: the status `initializing` the hook holds before its effect first runs (hooks/useBinanceSocket.ts:46) is not a state of the model, because the constructor includes the effect's first `connect()`.

=== FILE: binance_socket.dfy ===
/**
 * The market-data subscription of hooks/useBinanceSocket.ts: the stream URL,
 * the reconnect policy (exponential backoff, endpoint rotation, no
 * reconnect after teardown), the decoding of an already-parsed frame into a
 * trade or a depth delta, and the per-channel single-slot mailbox drained by
 * one pending animation-frame callback.
 *
 * The transport, the timers and the animation frames are events: each
 * socket callback, timer firing and frame callback is a method of `Socket`.
 */
module BinanceSocket {
  import opened Options
  import opened Ledger

  // ------------------------------------------------------------------
  // Decoded values
  // ------------------------------------------------------------------

  /** The taker side of a trade. */
  datatype TakerSide = Buy | Sell

  datatype TradeTick = TradeTick(id: int, price: int, qty: int, time: int, side: TakerSide)

  datatype OrderBookDelta = OrderBookDelta(bids: seq<Level>, asks: seq<Level>, time: int)

  // ------------------------------------------------------------------
  // Subscription URL and endpoint list
  // ------------------------------------------------------------------

  function LowerChar(c: char): (r: char)
  {
    if 'A' <= c <= 'Z' then (c as int + 32) as char else c
  }

  /** ASCII lower-casing (`toLowerCase` on a ticker symbol). */
  function Lower(s: string): (r: string)
    ensures |r| == |s|
    ensures forall i :: 0 <= i < |s| ==> r[i] == LowerChar(s[i])
    ensures forall i :: 0 <= i < |r| ==> !('A' <= r[i] <= 'Z')
  {
    seq(|s|, i requires 0 <= i < |s| => LowerChar(s[i]))
  }

  /** The subscribed symbol: the option given, `BTCUSDT` when there is none, lower-cased. */
  function SubscriptionSymbol(symbol: Option<string>): (sym: string)
    ensures symbol.Some? ==> sym == Lower(symbol.value)
    ensures symbol.Some? ==> |sym| == |symbol.value|
    ensures forall i :: 0 <= i < |sym| ==> !('A' <= sym[i] <= 'Z')
  {
    Lower(if symbol.Some? then symbol.value else DefaultSymbol)
  }

  const DefaultSymbol: string := "BTCUSDT"

  /** The combined-stream URL: the trade stream and the 100 ms depth stream of `sym` on endpoint `base`. */
  function StreamUrl(base: string, sym: string): string
  {
    base + "?streams=" + sym + "@aggTrade/" + sym + "@depth@100ms"
  }

  /** Two subscriptions on the same endpoint have the same URL only when their symbols are equal. */
  lemma {:induction false} StreamUrlDeterminesSymbol(base: string, s1: string, s2: string)
    requires StreamUrl(base, s1) == StreamUrl(base, s2)
    ensures s1 == s2
  {
    var q1, q2 := StreamUrl(base, s1)[|base|..], StreamUrl(base, s2)[|base|..];
    assert |q1| == 2 * |s1| + 31 && |q2| == 2 * |s2| + 31;
    forall i | 0 <= i < |s1|
      ensures s1[i] == s2[i]
    {
      assert s1[i] == q1[9 + i] && s2[i] == q2[9 + i];
    }
  }

  const FallbackEndpoints: seq<string> := [
    "wss://stream.binance.com:9443/stream",
    "wss://stream.binance.com/stream",
    "wss://stream.binance.com:443/stream",
    "wss://stream.binance.us:9443/stream",
    "wss://stream.binance.us/stream",
    "wss://stream.binance.us:443/stream",
    "wss://fstream.binance.com/stream",
    "wss://testnet.binance.vision/stream"
  ]

  /**
   * The endpoint list: the configured base (an empty `envBase` standing for
   * an unset variable) or the first fallback, then the other fallbacks. No
   * entry is empty, so the source's `filter(Boolean)` removes nothing.
   */
  function Endpoints(envBase: string): (r: seq<string>)
    ensures |r| == |FallbackEndpoints|
    ensures forall i :: 0 <= i < |r| ==> r[i] != ""
    ensures envBase != "" ==> r[0] == envBase
    ensures envBase == "" ==> r == FallbackEndpoints
    ensures r[1..] == FallbackEndpoints[1..]
  {
    [if envBase != "" then envBase else FallbackEndpoints[0]] + FallbackEndpoints[1..]
  }

  /** The endpoint used by the next connection attempt. */
  function ActiveEndpoint(endpoints: seq<string>, endpointIndex: nat): (base: string)
    requires |endpoints| > 0
    ensures base in endpoints
    ensures endpointIndex < |endpoints| ==> base == endpoints[endpointIndex]
  {
    endpoints[endpointIndex % |endpoints|]
  }

  /** With no symbol option the subscription is for `btcusdt`. */
  lemma DefaultSymbolIsLowered()
    ensures SubscriptionSymbol(None) == "btcusdt"
  {
    var sym := SubscriptionSymbol(None);
    assert |sym| == 7;
    assert forall i :: 0 <= i < 7 ==> sym[i] == LowerChar(DefaultSymbol[i]);
  }

  // ------------------------------------------------------------------
  // Reconnect policy
  // ------------------------------------------------------------------

  function Pow2(n: nat): (r: nat)
    ensures r >= 1
  {
    if n == 0 then 1 else 2 * Pow2(n - 1)
  }

  lemma {:induction false} Pow2Monotone(m: nat, n: nat)
    requires m <= n
    ensures Pow2(m) <= Pow2(n)
    decreases n
  {
    if m < n {
      Pow2Monotone(m, n - 1);
    }
  }

  /** The reconnect delay after `failures` earlier failures: 500 ms doubled per failure, capped at 10 s. */
  function Backoff(failures: nat): (delay: nat)
    ensures 500 <= delay <= 10000
  {
    if 500 * Pow2(failures) < 10000 then 500 * Pow2(failures) else 10000
  }

  /** The delays of consecutive failures: 500, 1000, 2000, 4000, 8000, then 10000 forever. */
  lemma BackoffSequence(failures: nat)
    ensures Backoff(0) == 500 && Backoff(1) == 1000 && Backoff(2) == 2000
    ensures Backoff(3) == 4000 && Backoff(4) == 8000
    ensures failures >= 5 ==> Backoff(failures) == 10000
  {
    assert Pow2(5) == 32;
    if failures >= 5 {
      Pow2Monotone(5, failures);
    }
  }

  /** More failures never shorten the delay. */
  lemma BackoffMonotone(m: nat, n: nat)
    requires m <= n
    ensures Backoff(m) <= Backoff(n)
  {
    Pow2Monotone(m, n);
  }

  /** The failure count and the endpoint rotation index. */
  datatype Counters = Counters(retry: nat, endpointIndex: nat)

  /** A close that is not a teardown: one more failure, and every third failure moves to the next endpoint. */
  function Fail(c: Counters): Counters
  {
    var retry := c.retry + 1;
    Counters(retry, if retry % 3 == 0 then c.endpointIndex + 1 else c.endpointIndex)
  }

  function FailTimes(c: Counters, n: nat): Counters
  {
    if n == 0 then c else Fail(FailTimes(c, n - 1))
  }

  /**
   * After `n` consecutive failures the counter has grown by exactly `n` and
   * the endpoint index by the number of multiples of 3 passed on the way
   * (from a fresh counter: one rotation per three failures).
   */
  lemma {:induction false} FailureRun(c: Counters, n: nat)
    ensures FailTimes(c, n) == Counters(c.retry + n, c.endpointIndex + (c.retry + n) / 3 - c.retry / 3)
    ensures c.retry == 0 ==> FailTimes(c, n).endpointIndex == c.endpointIndex + n / 3
    decreases n
  {
    if n > 0 {
      FailureRun(c, n - 1);
    }
  }

  /**
   * Failover: from a fresh counter, after 3k consecutive failures the next
   * connection attempt uses the k-th endpoint of the list.
   */
  lemma {:induction false} FailoverReaches(eps: seq<string>, k: nat)
    requires 0 < |eps| && k < |eps|
    ensures ActiveEndpoint(eps, FailTimes(Counters(0, 0), 3 * k).endpointIndex) == eps[k]
  {
    FailureRun(Counters(0, 0), 3 * k);
    assert (3 * k) / 3 == k;
  }

  // ------------------------------------------------------------------
  // Frames
  // ------------------------------------------------------------------

  /**
   * An object payload as `JSON.parse` leaves it. Only the fields the decoder
   * reads are kept: `e` (the type tag), `E` (event time), for a trade `a`
   * (the aggregate trade id), `p`, `q` and `m`, for a depth update `b` and
   * `a` (the bid and ask lists, `None` when the field is missing).
   */
  datatype Payload = Payload(
    e: string, eventTime: int,
    tradeId: int, p: string, q: string, m: bool,
    bidLevels: Option<seq<(string, string)>>, askLevels: Option<seq<(string, string)>>)

  /** A parsed frame: a bare payload, a combined-stream wrapper `{stream, data}`, or any other JSON value. */
  datatype Frame = Bare(payload: Payload) | Combined(stream: string, data: Payload) | NotAnObject

  datatype Event = TradeEvent(tick: TradeTick) | DepthEvent(delta: OrderBookDelta) | Ignored

  function PayloadOf(f: Frame): Option<Payload>
  {
    match f
    case Bare(p) => Some(p)
    case Combined(_, d) => Some(d)
    case NotAnObject => None
  }

  /** `[priceStr, qtyStr]` pairs to levels, in order, through the number parser `num`. */
  function DecodeLevels(pairs: seq<(string, string)>, num: string -> int): (r: seq<Level>)
    ensures |r| == |pairs|
    ensures forall i :: 0 <= i < |pairs| ==> r[i] == Level(num(pairs[i].0), num(pairs[i].1))
  {
    if pairs == [] then [] else [Level(num(pairs[0].0), num(pairs[0].1))] + DecodeLevels(pairs[1..], num)
  }

  function OrEmpty(pairs: Option<seq<(string, string)>>): seq<(string, string)>
  {
    if pairs.Some? then pairs.value else []
  }

  /**
   * Classifies and decodes one frame: `aggTrade` gives a trade whose taker
   * sold iff the buyer was the maker, `depthUpdate` gives a delta, any other
   * tag (or no payload) is ignored.
   */
  function Decode(f: Frame, num: string -> int): (ev: Event)
    ensures ev.TradeEvent? <==> PayloadOf(f).Some? && PayloadOf(f).value.e == "aggTrade"
    ensures ev.DepthEvent? <==> PayloadOf(f).Some? && PayloadOf(f).value.e == "depthUpdate"
    ensures ev.TradeEvent? ==>
      var p := PayloadOf(f).value;
      ev.tick.id == p.tradeId && ev.tick.time == p.eventTime &&
      ev.tick.price == num(p.p) && ev.tick.qty == num(p.q) && (ev.tick.side == Sell <==> p.m)
    ensures ev.DepthEvent? ==>
      var p := PayloadOf(f).value;
      ev.delta.bids == DecodeLevels(OrEmpty(p.bidLevels), num) &&
      ev.delta.asks == DecodeLevels(OrEmpty(p.askLevels), num) &&
      ev.delta.time == p.eventTime
    ensures ev.DepthEvent? ==>
      var p := PayloadOf(f).value;
      (p.bidLevels.None? ==> ev.delta.bids == []) && (p.askLevels.None? ==> ev.delta.asks == [])
  {
    match PayloadOf(f)
    case None => Ignored
    case Some(p) =>
      if p.e == "aggTrade" then
        TradeEvent(TradeTick(p.tradeId, num(p.p), num(p.q), p.eventTime, if p.m then Sell else Buy))
      else if p.e == "depthUpdate" then
        DepthEvent(OrderBookDelta(DecodeLevels(OrEmpty(p.bidLevels), num), DecodeLevels(OrEmpty(p.askLevels), num), p.eventTime))
      else Ignored
  }

  /** The combined-stream wrapper is transparent: it decodes as its `data` does. */
  lemma CombinedDecodesAsBare(stream: string, p: Payload, num: string -> int)
    ensures Decode(Combined(stream, p), num) == Decode(Bare(p), num)
  {
  }

  /** The venue's encoding of a trade, with `show` printing a number as a decimal string. */
  function EncodeTrade(t: TradeTick, show: int -> string): Payload
  {
    Payload("aggTrade", t.time, t.id, show(t.price), show(t.qty), t.side == Sell, None, None)
  }

  function EncodeLevels(ls: seq<Level>, show: int -> string): (r: seq<(string, string)>)
    ensures |r| == |ls|
    ensures forall i :: 0 <= i < |ls| ==> r[i] == (show(ls[i].price), show(ls[i].qty))
  {
    if ls == [] then [] else [(show(ls[0].price), show(ls[0].qty))] + EncodeLevels(ls[1..], show)
  }

  function EncodeDepth(d: OrderBookDelta, show: int -> string): Payload
  {
    Payload("depthUpdate", d.time, 0, "", "", false, Some(EncodeLevels(d.bids, show)), Some(EncodeLevels(d.asks, show)))
  }

  /** Decoding undoes the venue's encoding of a trade, whenever parsing undoes printing. */
  lemma TradeRoundTrip(t: TradeTick, num: string -> int, show: int -> string)
    requires forall x :: num(show(x)) == x
    ensures Decode(Bare(EncodeTrade(t, show)), num) == TradeEvent(t)
  {
  }

  lemma {:induction false} LevelsRoundTrip(ls: seq<Level>, num: string -> int, show: int -> string)
    requires forall x :: num(show(x)) == x
    ensures DecodeLevels(EncodeLevels(ls, show), num) == ls
  {
    var r := DecodeLevels(EncodeLevels(ls, show), num);
    assert |r| == |ls|;
    forall i | 0 <= i < |ls|
      ensures r[i] == ls[i]
    {
      assert EncodeLevels(ls, show)[i] == (show(ls[i].price), show(ls[i].qty));
    }
  }

  /** Decoding undoes the venue's encoding of a depth update: same levels, same order. */
  lemma DepthRoundTrip(d: OrderBookDelta, num: string -> int, show: int -> string)
    requires forall x :: num(show(x)) == x
    ensures Decode(Bare(EncodeDepth(d, show)), num) == DepthEvent(d)
  {
    LevelsRoundTrip(d.bids, num, show);
    LevelsRoundTrip(d.asks, num, show);
  }

  // ------------------------------------------------------------------
  // The single-slot mailbox of one channel
  // ------------------------------------------------------------------

  /**
   * The frame reference of a channel: no frame requested, a frame callback
   * pending, or the id of a frame that teardown cancelled (the reference is
   * not cleared, so no later frame is ever requested).
   */
  datatype FrameRef = Idle | Scheduled | Cancelled

  /** The buffered latest value of a channel and its frame reference. */
  datatype Mailbox<T> = Mailbox(buffered: Option<T>, frame: FrameRef)

  /** An arrival overwrites the slot and requests a frame unless one is already requested. */
  function Offer<T>(mb: Mailbox<T>, v: T): (r: Mailbox<T>)
    ensures r.buffered == Some(v)
    ensures mb.frame == Idle ==> r.frame == Scheduled
    ensures mb.frame != Idle ==> r.frame == mb.frame
  {
    Mailbox(Some(v), if mb.frame == Idle then Scheduled else mb.frame)
  }

  function OfferAll<T>(mb: Mailbox<T>, vs: seq<T>): Mailbox<T>
  {
    if vs == [] then mb else Offer(OfferAll(mb, vs[..|vs| - 1]), vs[|vs| - 1])
  }

  /** The frame callback: clears the frame reference and publishes the buffered value, if any. */
  function Drain<T>(mb: Mailbox<T>): (r: (Mailbox<T>, Option<T>))
    requires mb.frame == Scheduled
    ensures r.0.frame == Idle && r.0.buffered == mb.buffered && r.1 == mb.buffered
  {
    (mb.(frame := Idle), mb.buffered)
  }

  /** Teardown cancels a requested frame but leaves the reference set. */
  function CancelFrame<T>(mb: Mailbox<T>): (r: Mailbox<T>)
    ensures r.buffered == mb.buffered
    ensures r.frame == (if mb.frame == Scheduled then Cancelled else mb.frame)
  {
    if mb.frame == Scheduled then mb.(frame := Cancelled) else mb
  }

  /**
   * A burst of arrivals on a channel that is not cancelled leaves one frame
   * requested, and that frame publishes the last arrival only.
   */
  lemma {:induction false} BurstPublishesLatest<T>(mb: Mailbox<T>, vs: seq<T>)
    requires mb.frame != Cancelled
    requires vs != []
    ensures OfferAll(mb, vs) == Mailbox(Some(vs[|vs| - 1]), Scheduled)
    ensures Drain(OfferAll(mb, vs)).1 == Some(vs[|vs| - 1])
    decreases |vs|
  {
    if |vs| > 1 {
      BurstPublishesLatest(mb, vs[..|vs| - 1]);
    }
  }

  /** After teardown cancelled a pending frame, arrivals are buffered but never scheduled for publication. */
  lemma {:induction false} CancelledStaysSilent<T>(mb: Mailbox<T>, vs: seq<T>)
    requires mb.frame == Cancelled
    ensures OfferAll(mb, vs).frame == Cancelled
    decreases |vs|
  {
    if vs != [] {
      CancelledStaysSilent(mb, vs[..|vs| - 1]);
    }
  }

  // ------------------------------------------------------------------
  // The connection
  // ------------------------------------------------------------------

  datatype Status = Connecting(url: string) | Connected | Errored | Closed(code: int, reason: string)

  /**
   * One subscription of the hook, from the effect's first `connect()` to
   * and after its teardown. `live` says that the current socket has not yet
   * delivered its close event; `reconnect` is the delay of the pending
   * reconnect timer, if one is pending; `sockets` counts the sockets opened.
   */
  class Socket {
    const symbol: string
    const endpoints: seq<string>
    var retry: nat
    var endpointIndex: nat
    var closed: bool
    var connected: bool
    var status: Status
    var url: string
    var live: bool
    var reconnect: Option<nat>
    var sockets: nat
    var bufferedTrade: Option<TradeTick>
    var tradeFrame: FrameRef
    var bufferedDepth: Option<OrderBookDelta>
    var depthFrame: FrameRef
    var lastTrade: Option<TradeTick>
    var lastDelta: Option<OrderBookDelta>

    ghost predicate Valid()
      reads this
    {
      && |endpoints| > 0
      && (reconnect.Some? ==> !live && 500 <= reconnect.value <= 10000)
      && (connected ==> live)
    }

    function CountersOf(): Counters
      reads this
    {
      Counters(retry, endpointIndex)
    }

    function TradeBox(): Mailbox<TradeTick>
      reads this
    {
      Mailbox(bufferedTrade, tradeFrame)
    }

    function DepthBox(): Mailbox<OrderBookDelta>
      reads this
    {
      Mailbox(bufferedDepth, depthFrame)
    }

    /**
     * Mounting the hook: the initial state, then the effect's first
     * `connect()`. The initial status `initializing` is replaced by that
     * `connect()` before any event can be delivered, so it is not a state here.
     */
    constructor (symbolOption: Option<string>, envBase: string)
      ensures Valid()
      ensures symbol == SubscriptionSymbol(symbolOption) && endpoints == Endpoints(envBase)
      ensures retry == 0 && endpointIndex == 0 && !closed && !connected
      ensures url == StreamUrl(ActiveEndpoint(endpoints, 0), symbol) && status == Connecting(url)
      ensures live && reconnect == None && sockets == 1
      ensures TradeBox() == Mailbox(None, Idle) && DepthBox() == Mailbox(None, Idle)
      ensures lastTrade == None && lastDelta == None
    {
      var eps := Endpoints(envBase);
      var sym := SubscriptionSymbol(symbolOption);
      symbol, endpoints := sym, eps;
      retry, endpointIndex := 0, 0;
      closed, connected := false, false;
      bufferedTrade, tradeFrame := None, Idle;
      bufferedDepth, depthFrame := None, Idle;
      lastTrade, lastDelta := None, None;
      reconnect := None;
      var first := StreamUrl(ActiveEndpoint(eps, 0), sym);
      url, status := first, Connecting(first);
      live, sockets := true, 1;
    }

    /** The pending reconnect timer fires and runs `connect()` with the current rotation state. */
    method OnReconnectTimer()
      requires Valid() && reconnect.Some?
      modifies this
      ensures Valid()
      ensures url == StreamUrl(ActiveEndpoint(endpoints, endpointIndex), symbol) && status == Connecting(url)
      ensures live && reconnect == None && sockets == old(sockets) + 1
      ensures CountersOf() == old(CountersOf()) && closed == old(closed) && connected == old(connected)
      ensures TradeBox() == old(TradeBox()) && DepthBox() == old(DepthBox())
      ensures lastTrade == old(lastTrade) && lastDelta == old(lastDelta)
    {
      reconnect := None;
      var base := endpoints[endpointIndex % |endpoints|];
      url := StreamUrl(base, symbol);
      status := Connecting(url);
      live := true;
      sockets := sockets + 1;
    }

    /** `onopen`: ignored after teardown; otherwise connected, with the failure count reset. */
    method OnOpen()
      requires Valid() && live
      modifies this
      ensures Valid()
      ensures old(closed) ==> connected == old(connected) && status == old(status) && retry == old(retry)
      ensures !old(closed) ==> connected && retry == 0 && status == Connected
      ensures endpointIndex == old(endpointIndex) && closed == old(closed) && live && reconnect == old(reconnect)
      ensures url == old(url) && sockets == old(sockets)
      ensures TradeBox() == old(TradeBox()) && DepthBox() == old(DepthBox())
      ensures lastTrade == old(lastTrade) && lastDelta == old(lastDelta)
    {
      if closed {
        return;
      }
      connected := true;
      retry := 0;
      status := Connected;
    }

    /** `onerror`: only reports; the close event that follows does the rest. */
    method OnError()
      requires Valid() && live
      modifies this
      ensures Valid()
      ensures status == Errored
      ensures CountersOf() == old(CountersOf()) && reconnect == old(reconnect)
      ensures closed == old(closed) && connected == old(connected) && live
      ensures url == old(url) && sockets == old(sockets)
      ensures TradeBox() == old(TradeBox()) && DepthBox() == old(DepthBox())
      ensures lastTrade == old(lastTrade) && lastDelta == old(lastDelta)
    {
      status := Errored;
    }

    /**
     * `onclose`: always disconnected; unless torn down, a reconnect is
     * scheduled after `Backoff` of the failure count before the increment,
     * and the counters take one failure step.
     */
    method OnClose(code: int, reason: string)
      requires Valid() && live
      modifies this
      ensures Valid()
      ensures !live && !connected && status == Closed(code, if reason == "" then "n/a" else reason)
      ensures old(closed) ==> CountersOf() == old(CountersOf()) && reconnect == None
      ensures !old(closed) ==> CountersOf() == Fail(old(CountersOf())) && reconnect == Some(Backoff(old(retry)))
      ensures closed == old(closed) && url == old(url) && sockets == old(sockets)
      ensures TradeBox() == old(TradeBox()) && DepthBox() == old(DepthBox())
      ensures lastTrade == old(lastTrade) && lastDelta == old(lastDelta)
    {
      connected := false;
      live := false;
      status := Closed(code, if reason == "" then "n/a" else reason);
      if closed {
        return;
      }
      var delay := Backoff(retry);
      retry := retry + 1;
      if retry % 3 == 0 {
        endpointIndex := endpointIndex + 1;
      }
      reconnect := Some(delay);
    }

    /** `onmessage`: a trade or depth delta goes to its channel's mailbox; anything else changes nothing. */
    method OnMessage(f: Frame, num: string -> int)
      requires Valid() && live
      modifies this
      ensures Valid()
      ensures Decode(f, num).TradeEvent? ==> TradeBox() == Offer(old(TradeBox()), Decode(f, num).tick)
      ensures !Decode(f, num).TradeEvent? ==> TradeBox() == old(TradeBox())
      ensures Decode(f, num).DepthEvent? ==> DepthBox() == Offer(old(DepthBox()), Decode(f, num).delta)
      ensures !Decode(f, num).DepthEvent? ==> DepthBox() == old(DepthBox())
      ensures CountersOf() == old(CountersOf()) && reconnect == old(reconnect) && status == old(status)
      ensures closed == old(closed) && connected == old(connected) && live
      ensures url == old(url) && sockets == old(sockets)
      ensures lastTrade == old(lastTrade) && lastDelta == old(lastDelta)
    {
      var ev := Decode(f, num);
      match ev
      case TradeEvent(tick) =>
        bufferedTrade := Some(tick);
        if tradeFrame == Idle {
          tradeFrame := Scheduled;
        }
      case DepthEvent(delta) =>
        bufferedDepth := Some(delta);
        if depthFrame == Idle {
          depthFrame := Scheduled;
        }
      case Ignored =>
    }

    /** The trade channel's frame callback: publishes the latest buffered trade. */
    method OnTradeFrame()
      requires Valid() && tradeFrame == Scheduled
      modifies this
      ensures Valid()
      ensures TradeBox() == Drain(old(TradeBox())).0
      ensures lastTrade == (if old(bufferedTrade).Some? then old(bufferedTrade) else old(lastTrade))
      ensures DepthBox() == old(DepthBox()) && lastDelta == old(lastDelta)
      ensures CountersOf() == old(CountersOf()) && reconnect == old(reconnect) && status == old(status)
      ensures closed == old(closed) && connected == old(connected) && live == old(live)
      ensures url == old(url) && sockets == old(sockets)
    {
      tradeFrame := Idle;
      if bufferedTrade.Some? {
        lastTrade := bufferedTrade;
      }
    }

    /** The depth channel's frame callback: publishes the latest buffered delta. */
    method OnDepthFrame()
      requires Valid() && depthFrame == Scheduled
      modifies this
      ensures Valid()
      ensures DepthBox() == Drain(old(DepthBox())).0
      ensures lastDelta == (if old(bufferedDepth).Some? then old(bufferedDepth) else old(lastDelta))
      ensures TradeBox() == old(TradeBox()) && lastTrade == old(lastTrade)
      ensures CountersOf() == old(CountersOf()) && reconnect == old(reconnect) && status == old(status)
      ensures closed == old(closed) && connected == old(connected) && live == old(live)
      ensures url == old(url) && sockets == old(sockets)
    {
      depthFrame := Idle;
      if bufferedDepth.Some? {
        lastDelta := bufferedDepth;
      }
    }

    /**
     * The effect's cleanup: marks the subscription closed and cancels the
     * requested frames. Closing the socket is asynchronous: its close event
     * arrives later as `OnClose`. A pending reconnect timer is not cancelled.
     */
    method Teardown()
      requires Valid()
      modifies this
      ensures Valid()
      ensures closed
      ensures TradeBox() == CancelFrame(old(TradeBox())) && DepthBox() == CancelFrame(old(DepthBox()))
      ensures CountersOf() == old(CountersOf()) && reconnect == old(reconnect) && status == old(status)
      ensures connected == old(connected) && live == old(live)
      ensures url == old(url) && sockets == old(sockets)
      ensures lastTrade == old(lastTrade) && lastDelta == old(lastDelta)
    {
      closed := true;
      if tradeFrame == Scheduled {
        tradeFrame := Cancelled;
      }
      if depthFrame == Scheduled {
        depthFrame := Cancelled;
      }
    }
  }
}

=== FILE: depth_visualizer.dfy ===
/**
 * The depth chart of components/DepthVisualizer.tsx: its own ledger per
 * side, the 120 ms render gate, and the depth snapshot (the 25 best levels
 * per side, running totals, and one shared scale for both sides' bars).
 */
module DepthVisualizer {
  import opened Options
  import opened Ledger
  import opened Throttle
  import BinanceSocket

  const RenderWindow := 120
  const LevelLimit := 25

  /** The depth snapshot: best levels, running totals per side, and the shared bar scale. */
  datatype Depth = Depth(bids: seq<Level>, asks: seq<Level>, bidCum: seq<int>, askCum: seq<int>, max: int)

  function Max(a: int, b: int): int { if a >= b then a else b }

  /** The bar scale: the larger side total, with 0 (an empty or all-zero chart) replaced by 1. */
  function Scale(bidTotal: int, askTotal: int): (s: int)
    ensures s != 0
    ensures Max(bidTotal, askTotal) != 0 ==> s == Max(bidTotal, askTotal)
    ensures Max(bidTotal, askTotal) == 0 ==> s == 1
    ensures bidTotal >= 0 && askTotal >= 0 ==> s >= 1 && bidTotal <= s && askTotal <= s
  {
    var t := Max(bidTotal, askTotal);
    if t == 0 then 1 else t
  }

  /** `cum` holds the running totals of `levels`: entry i is the quantity of the first i + 1 levels. */
  ghost predicate RunningTotals(cum: seq<int>, levels: seq<Level>)
  {
    |cum| == |levels| && forall i :: 0 <= i < |levels| ==> cum[i] == QtySum(levels[..i + 1])
  }

  /** Running totals of non-negative quantities rise from 0 and stay within any bound of the grand total. */
  lemma {:induction false} RunningTotalsBounded(cum: seq<int>, levels: seq<Level>, bound: int)
    requires RunningTotals(cum, levels)
    requires NonNegativeQuantities(levels)
    requires QtySum(levels) <= bound
    ensures forall i, j :: 0 <= i <= j < |cum| ==> 0 <= cum[i] <= cum[j] <= bound
  {
    forall i, j | 0 <= i <= j < |cum|
      ensures 0 <= cum[i] <= cum[j] <= bound
    {
      RunningTotalsOrdered(levels, i, j);
    }
  }

  /** Accumulates the quantities of `levels` left to right. */
  method Cumulative(levels: seq<Level>) returns (cum: seq<int>)
    ensures RunningTotals(cum, levels)
    ensures cum != [] ==> cum[|cum| - 1] == QtySum(levels)
  {
    cum := [];
    var running := 0;
    var i := 0;
    while i < |levels|
      invariant 0 <= i <= |levels|
      invariant |cum| == i
      invariant running == QtySum(levels[..i])
      invariant forall k :: 0 <= k < i ==> cum[k] == QtySum(levels[..k + 1])
    {
      assert levels[..i + 1][..i] == levels[..i];
      running := running + levels[i].qty;
      cum := cum + [running];
      i := i + 1;
    }
    assert levels[..|levels|] == levels;
  }

  /** One side of the snapshot: the side's 25 best levels and their running totals. */
  method SideDepth(book: map<int, int>, side: Side) returns (levels: seq<Level>, cum: seq<int>)
    ensures IsTopLevels(levels, book, side, LevelLimit)
    ensures RunningTotals(cum, levels)
    ensures (if cum == [] then 0 else cum[|cum| - 1]) == QtySum(levels)
    ensures NonNegativeLevels(book) ==> NonNegativeQuantities(levels)
  {
    var entries := Entries(book);
    levels := Top(Rank(side, entries), LevelLimit);
    TopOfRankedEntries(entries, book, side, LevelLimit);
    cum := Cumulative(levels);
    if NonNegativeLevels(book) {
      TopLevelsNonNegative(levels, book, side, LevelLimit);
    }
  }

  /**
   * Builds the depth snapshot of the two ledgers: each side's 25 best levels
   * (highest bids, lowest asks), their running totals, and the scale both
   * sides' bars are drawn against.
   */
  method BuildDepth(bidBook: map<int, int>, askBook: map<int, int>) returns (d: Depth)
    ensures IsTopLevels(d.bids, bidBook, Bids, LevelLimit)
    ensures IsTopLevels(d.asks, askBook, Asks, LevelLimit)
    ensures RunningTotals(d.bidCum, d.bids) && RunningTotals(d.askCum, d.asks)
    ensures d.max == Scale(QtySum(d.bids), QtySum(d.asks))
    ensures NonNegativeLevels(bidBook) && NonNegativeLevels(askBook) ==>
      && d.max >= 1
      && (forall i, j :: 0 <= i <= j < |d.bidCum| ==> 0 <= d.bidCum[i] <= d.bidCum[j] <= d.max)
      && (forall i, j :: 0 <= i <= j < |d.askCum| ==> 0 <= d.askCum[i] <= d.askCum[j] <= d.max)
  {
    var bids, bidCum := SideDepth(bidBook, Bids);
    var asks, askCum := SideDepth(askBook, Asks);
    var bidTotal := if |bidCum| > 0 then bidCum[|bidCum| - 1] else 0;
    var askTotal := if |askCum| > 0 then askCum[|askCum| - 1] else 0;
    var top := if bidTotal >= askTotal then bidTotal else askTotal;
    d := Depth(bids, asks, bidCum, askCum, if top != 0 then top else 1);
    if NonNegativeLevels(bidBook) && NonNegativeLevels(askBook) {
      RunningTotalsBounded(bidCum, bids, d.max);
      RunningTotalsBounded(askCum, asks, d.max);
    }
  }

  /** The levels shown from a ledger with no negative quantity have none either. */
  lemma TopLevelsNonNegative(rows: seq<Level>, m: map<int, int>, side: Side, limit: nat)
    requires IsTopLevels(rows, m, side, limit)
    requires NonNegativeLevels(m)
    ensures NonNegativeQuantities(rows)
  {
  }

  /**
   * The component: its own ledger (`bookRef`), its render gate
   * (`lastRenderRef`, `timerRef`) and the re-renders requested (`setTick`).
   */
  class DepthView {
    var bids: map<int, int>
    var asks: map<int, int>
    var lastRender: int
    var timer: Option<int>
    var renders: nat

    ghost predicate Valid()
      reads this
    {
      NoZeroLevels(bids) && NoZeroLevels(asks) && Bounded(GateOf(), RenderWindow)
    }

    function GateOf(): Gate
      reads this
    {
      Gate(lastRender, timer, renders)
    }

    constructor ()
      ensures Valid()
      ensures bids == map[] && asks == map[]
      ensures GateOf() == Gate(0, None, 0)
    {
      bids, asks := map[], map[];
      lastRender, timer, renders := 0, None, 0;
    }

    /** Applies the pairs of `levels` to one side in order: quantity 0 deletes, anything else sets. */
    method ApplyDelta(side: Side, levels: seq<Level>)
      modifies this
      ensures side == Bids ==> bids == Applied(old(bids), levels) && asks == old(asks)
      ensures side == Asks ==> asks == Applied(old(asks), levels) && bids == old(bids)
      ensures GateOf() == old(GateOf())
    {
      for i := 0 to |levels|
        invariant side == Bids ==> bids == Applied(old(bids), levels[..i]) && asks == old(asks)
        invariant side == Asks ==> asks == Applied(old(asks), levels[..i]) && bids == old(bids)
        invariant GateOf() == old(GateOf())
      {
        var price, qty := levels[i].price, levels[i].qty;
        if side == Bids {
          if qty == 0 { bids := bids - {price}; } else { bids := bids[price := qty]; }
        } else {
          if qty == 0 { asks := asks - {price}; } else { asks := asks[price := qty]; }
        }
        assert levels[..i + 1][..i] == levels[..i];
      }
      assert levels[..|levels|] == levels;
    }

    /** A published delta: both sides are updated, then the chart re-renders now or defers. */
    method OnDelta(delta: BinanceSocket.OrderBookDelta, now: int)
      requires Valid()
      modifies this
      ensures Valid()
      ensures bids == Applied(old(bids), delta.bids) && asks == Applied(old(asks), delta.asks)
      ensures GateOf() == Arrive(old(GateOf()), now, RenderWindow)
    {
      ApplyDelta(Bids, delta.bids);
      ApplyDelta(Asks, delta.asks);
      AppliedKeepsNoZeroLevels(old(bids), delta.bids);
      AppliedKeepsNoZeroLevels(old(asks), delta.asks);
      var since := now - lastRender;
      if since >= RenderWindow {
        lastRender := now;
        renders := renders + 1;
      } else {
        timer := Some(now + (RenderWindow - since));
      }
    }

    /** The deferred render fires at `now`. */
    method OnRenderTimer(now: int)
      requires Valid() && timer.Some?
      modifies this
      ensures Valid()
      ensures bids == old(bids) && asks == old(asks)
      ensures GateOf() == Fire(old(GateOf()), now)
    {
      lastRender := now;
      renders := renders + 1;
      timer := None;
    }

    /** Unmount: the pending deferred render is cancelled. */
    method Teardown()
      requires Valid()
      modifies this
      ensures Valid()
      ensures bids == old(bids) && asks == old(asks)
      ensures GateOf() == Cancel(old(GateOf()))
    {
      timer := None;
    }

    /** The depth snapshot a render shows, built from the current ledger. */
    method Snapshot() returns (d: Depth)
      ensures IsTopLevels(d.bids, bids, Bids, LevelLimit) && IsTopLevels(d.asks, asks, Asks, LevelLimit)
      ensures RunningTotals(d.bidCum, d.bids) && RunningTotals(d.askCum, d.asks)
      ensures d.max == Scale(QtySum(d.bids), QtySum(d.asks))
    {
      d := BuildDepth(bids, asks);
    }
  }
}

=== FILE: ledger.dfy ===
/**
 * The Order Book State shared by the tabular book (components/OrderBook.tsx)
 * and the depth chart (components/DepthVisualizer.tsx): one price -> quantity
 * ledger per side, the effect of applying a list of price levels to it, and
 * the ranked, trimmed, cumulated view derived from it.
 *
 * Prices and quantities are fixed-point ticks (`int`).
 */
module Ledger {
  import opened Options

  /** One [price, quantity] pair, as carried by a depth delta and as stored in a ledger. */
  datatype Level = Level(price: int, qty: int)

  datatype Side = Bids | Asks

  function Min(a: int, b: int): int { if a <= b then a else b }

  // ------------------------------------------------------------------
  // The ledger and the effect of a delta
  // ------------------------------------------------------------------

  /** The ledger invariant: a level with quantity 0 is never stored. */
  ghost predicate NoZeroLevels(m: map<int, int>)
  {
    forall p :: p in m ==> m[p] != 0
  }

  ghost predicate NonNegativeLevels(m: map<int, int>)
  {
    forall p :: p in m ==> m[p] >= 0
  }

  ghost predicate NonNegativeQuantities(levels: seq<Level>)
  {
    forall k :: 0 <= k < |levels| ==> levels[k].qty >= 0
  }

  /** One pair of a delta: quantity 0 deletes the price, any other quantity sets it. */
  function Put(m: map<int, int>, l: Level): (r: map<int, int>)
    ensures l.qty == 0 ==> l.price !in r
    ensures l.qty != 0 ==> l.price in r && r[l.price] == l.qty
    ensures forall p :: p != l.price ==> (p in r <==> p in m) && (p in m ==> r[p] == m[p])
  {
    if l.qty == 0 then m - {l.price} else m[l.price := l.qty]
  }

  /** The ledger after the pairs of `levels` are applied in list order. */
  function Applied(m: map<int, int>, levels: seq<Level>): map<int, int>
    decreases |levels|
  {
    if levels == [] then m
    else Put(Applied(m, levels[..|levels| - 1]), levels[|levels| - 1])
  }

  /** Pair `k` of `levels` names `price` and no later pair does. */
  ghost predicate LastNaming(levels: seq<Level>, price: int, k: int)
  {
    0 <= k < |levels| && levels[k].price == price &&
    forall j :: k < j < |levels| ==> levels[j].price != price
  }

  /** The quantity carried by the last pair of `levels` that names `price`, if any. */
  function LastWrite(levels: seq<Level>, price: int): (r: Option<int>)
    ensures r.None? <==> forall k :: 0 <= k < |levels| ==> levels[k].price != price
    ensures r.Some? ==> exists k :: LastNaming(levels, price, k) && levels[k].qty == r.value
    decreases |levels|
  {
    if levels == [] then None
    else if levels[|levels| - 1].price == price then
      assert LastNaming(levels, price, |levels| - 1);
      Some(levels[|levels| - 1].qty)
    else
      var init := levels[..|levels| - 1];
      var r := LastWrite(init, price);
      assert forall k :: 0 <= k < |init| ==> init[k] == levels[k];
      assert forall k :: LastNaming(init, price, k) ==> LastNaming(levels, price, k);
      r
  }

  /**
   * What a delta does to one price: a price the delta does not name keeps
   * its presence and quantity; otherwise the last pair naming it wins, a
   * quantity of 0 meaning "absent".
   */
  lemma {:induction false} AppliedAt(m: map<int, int>, levels: seq<Level>, p: int)
    ensures LastWrite(levels, p).None? ==>
      (p in Applied(m, levels) <==> p in m) && (p in m ==> Applied(m, levels)[p] == m[p])
    ensures LastWrite(levels, p) == Some(0) ==> p !in Applied(m, levels)
    ensures LastWrite(levels, p).Some? && LastWrite(levels, p).value != 0 ==>
      p in Applied(m, levels) && Applied(m, levels)[p] == LastWrite(levels, p).value
    decreases |levels|
  {
    if levels != [] {
      AppliedAt(m, levels[..|levels| - 1], p);
    }
  }

  /** Deleting a price that is not in the ledger leaves the ledger as it was. */
  lemma DeleteAbsentIsNoop(m: map<int, int>, p: int)
    requires p !in m
    ensures Applied(m, [Level(p, 0)]) == m
  {
    assert [Level(p, 0)][..0] == [];
  }

  /** Applying a delta never stores a zero quantity. */
  lemma {:induction false} AppliedKeepsNoZeroLevels(m: map<int, int>, levels: seq<Level>)
    requires NoZeroLevels(m)
    ensures NoZeroLevels(Applied(m, levels))
    decreases |levels|
  {
    if levels != [] {
      AppliedKeepsNoZeroLevels(m, levels[..|levels| - 1]);
    }
  }

  /** A delta whose quantities are non-negative keeps every stored quantity non-negative. */
  lemma {:induction false} AppliedKeepsNonNegative(m: map<int, int>, levels: seq<Level>)
    requires NonNegativeLevels(m)
    requires NonNegativeQuantities(levels)
    ensures NonNegativeLevels(Applied(m, levels))
    decreases |levels|
  {
    if levels != [] {
      AppliedKeepsNonNegative(m, levels[..|levels| - 1]);
    }
  }

  // ------------------------------------------------------------------
  // Ranking: the comparator sort of the entries
  // ------------------------------------------------------------------

  /** Price `a` is strictly better than price `b`: higher for bids, lower for asks. */
  predicate Better(side: Side, a: int, b: int)
  {
    match side
    case Bids => a > b
    case Asks => a < b
  }

  /** Best first: no later level is strictly better than an earlier one. */
  ghost predicate Ranked(side: Side, s: seq<Level>)
  {
    forall i, j :: 0 <= i < j < |s| ==> !Better(side, s[j].price, s[i].price)
  }

  ghost predicate StrictlyRanked(side: Side, s: seq<Level>)
  {
    forall i, j :: 0 <= i < j < |s| ==> Better(side, s[i].price, s[j].price)
  }

  ghost predicate DistinctPrices(s: seq<Level>)
  {
    forall i, j :: 0 <= i < j < |s| ==> s[i].price != s[j].price
  }

  /** Inserts `x` in front of the first level it is at least as good as (so ties keep input order). */
  function Insert(side: Side, x: Level, s: seq<Level>): (r: seq<Level>)
    ensures multiset(r) == multiset(s) + multiset{x}
  {
    if s == [] || !Better(side, s[0].price, x.price) then [x] + s
    else
      assert s == [s[0]] + s[1..];
      [s[0]] + Insert(side, x, s[1..])
  }

  /**
   * The entries sorted by the side's comparator (descending price for bids,
   * ascending for asks), stably, as a permutation of the input.
   */
  function Rank(side: Side, s: seq<Level>): (r: seq<Level>)
    ensures multiset(r) == multiset(s)
    ensures |r| == |s|
  {
    if s == [] then []
    else
      assert s == [s[0]] + s[1..];
      Insert(side, s[0], Rank(side, s[1..]))
  }

  lemma {:induction false} InsertRanked(side: Side, x: Level, s: seq<Level>)
    requires Ranked(side, s)
    ensures Ranked(side, Insert(side, x, s))
    decreases |s|
  {
    if s != [] && Better(side, s[0].price, x.price) {
      var t := Insert(side, x, s[1..]);
      InsertRanked(side, x, s[1..]);
      forall y | y in t
        ensures !Better(side, y.price, s[0].price)
      {
        assert y in multiset(t);
        if y != x {
          assert y in multiset(s[1..]);
          assert y in s[1..];
        }
      }
    }
  }

  /** The sort leaves the levels best first. */
  lemma {:induction false} RankRanked(side: Side, s: seq<Level>)
    ensures Ranked(side, Rank(side, s))
    decreases |s|
  {
    if s != [] {
      RankRanked(side, s[1..]);
      InsertRanked(side, s[0], Rank(side, s[1..]));
    }
  }

  lemma {:induction false} InsertStrictlyRanked(side: Side, x: Level, s: seq<Level>)
    requires StrictlyRanked(side, s)
    requires forall k :: 0 <= k < |s| ==> s[k].price != x.price
    ensures StrictlyRanked(side, Insert(side, x, s))
    decreases |s|
  {
    if s != [] && Better(side, s[0].price, x.price) {
      var t := Insert(side, x, s[1..]);
      InsertStrictlyRanked(side, x, s[1..]);
      forall y | y in t
        ensures Better(side, s[0].price, y.price)
      {
        assert y in multiset(t);
        if y != x {
          assert y in multiset(s[1..]);
          assert y in s[1..];
        }
      }
    }
  }

  /** With distinct prices (ledger keys) the sort is strictly best first. */
  lemma {:induction false} RankStrictlyRanked(side: Side, s: seq<Level>)
    requires DistinctPrices(s)
    ensures StrictlyRanked(side, Rank(side, s))
    decreases |s|
  {
    if s != [] {
      var t := Rank(side, s[1..]);
      RankStrictlyRanked(side, s[1..]);
      forall k | 0 <= k < |t|
        ensures t[k].price != s[0].price
      {
        assert t[k] in multiset(s[1..]);
        var j :| 0 <= j < |s[1..]| && s[1..][j] == t[k];
        assert s[j + 1] == t[k];
      }
      InsertStrictlyRanked(side, s[0], t);
    }
  }

  /** The first `limit` levels (`slice(0, limit)`). */
  function Top(s: seq<Level>, limit: nat): (r: seq<Level>)
    ensures |r| == Min(limit, |s|)
    ensures forall i :: 0 <= i < |r| ==> r[i] == s[i]
  {
    s[..Min(limit, |s|)]
  }

  // ------------------------------------------------------------------
  // The entries of a ledger and the best levels of a side
  // ------------------------------------------------------------------

  /** `es` lists every entry of `m` once, in some order (`Array.from(m.entries())`). */
  ghost predicate EntriesOf(es: seq<Level>, m: map<int, int>)
  {
    && |es| == |m|
    && DistinctPrices(es)
    && (forall i :: 0 <= i < |es| ==> es[i].price in m && m[es[i].price] == es[i].qty)
    && (forall p :: p in m ==> Level(p, m[p]) in es)
  }

  ghost predicate Shown(rows: seq<Level>, p: int)
  {
    exists i :: 0 <= i < |rows| && rows[i].price == p
  }

  /**
   * `rows` are the `limit` best levels of ledger `m` (or all of them when
   * there are fewer), best first, each with its stored quantity; every level
   * left out is worse than every level shown.
   */
  ghost predicate IsTopLevels(rows: seq<Level>, m: map<int, int>, side: Side, limit: nat)
  {
    && |rows| == Min(limit, |m|)
    && (forall i :: 0 <= i < |rows| ==> rows[i].price in m && m[rows[i].price] == rows[i].qty)
    && StrictlyRanked(side, rows)
    && (forall p :: p in m && !Shown(rows, p) ==>
          forall i :: 0 <= i < |rows| ==> Better(side, rows[i].price, p))
  }

  /** Sorting the entries of a ledger and keeping the first `limit` gives its best levels. */
  lemma {:induction false} TopOfRankedEntries(es: seq<Level>, m: map<int, int>, side: Side, limit: nat)
    requires EntriesOf(es, m)
    ensures IsTopLevels(Top(Rank(side, es), limit), m, side, limit)
  {
    var r := Rank(side, es);
    var rows := Top(r, limit);
    RankStrictlyRanked(side, es);
    forall i | 0 <= i < |rows|
      ensures rows[i].price in m && m[rows[i].price] == rows[i].qty
    {
      assert rows[i] == r[i];
      assert r[i] in multiset(es);
      var k :| 0 <= k < |es| && es[k] == r[i];
    }
    forall p | p in m && !Shown(rows, p)
      ensures forall i :: 0 <= i < |rows| ==> Better(side, rows[i].price, p)
    {
      var l := Level(p, m[p]);
      assert l in multiset(es);
      assert l in multiset(r);
      var k :| 0 <= k < |r| && r[k] == l;
    }
  }

  /** When there is at least one level, the best one is the first row. */
  lemma {:induction false} TopLevelsBest(rows: seq<Level>, m: map<int, int>, side: Side, limit: nat)
    requires IsTopLevels(rows, m, side, limit)
    requires limit > 0
    ensures rows == [] <==> m == map[]
    ensures rows != [] ==>
      rows[0].price in m && forall p :: p in m ==> !Better(side, p, rows[0].price)
  {
    assert m == map[] <==> |m| == 0;
    if rows != [] {
      forall p | p in m
        ensures !Better(side, p, rows[0].price)
      {
        if Shown(rows, p) {
          var i :| 0 <= i < |rows| && rows[i].price == p;
          assert i == 0 || Better(side, rows[0].price, rows[i].price);
        }
      }
    }
  }

  lemma {:induction false} TopLevelsPrefix(r1: seq<Level>, r2: seq<Level>, m: map<int, int>, side: Side, limit: nat, n: nat)
    requires IsTopLevels(r1, m, side, limit) && IsTopLevels(r2, m, side, limit)
    requires n <= |r1|
    ensures r1[..n] == r2[..n]
    decreases n
  {
    if n > 0 {
      var i := n - 1;
      TopLevelsPrefix(r1, r2, m, side, limit, i);
      if r1[i].price != r2[i].price {
        var a, b := r1, r2;
        if Better(side, r2[i].price, r1[i].price) {
          a, b := r2, r1;
        }
        // now Better(side, a[i].price, b[i].price), and a[..i] == b[..i]
        assert Better(side, a[i].price, b[i].price) by {
          match side
          case Bids =>
          case Asks =>
        }
        var p := a[i].price;
        if Shown(b, p) {
          var j :| 0 <= j < |b| && b[j].price == p;
          assert false;
        } else {
          assert false;
        }
      }
      assert r1[i] == r2[i];
      assert r1[..n] == r1[..i] + [r1[i]] && r2[..n] == r2[..i] + [r2[i]];
    }
  }

  /**
   * The best levels of a ledger are determined by the ledger alone: whatever
   * order its entries are listed in, the snapshot is the same.
   */
  lemma TopLevelsUnique(r1: seq<Level>, r2: seq<Level>, m: map<int, int>, side: Side, limit: nat)
    requires IsTopLevels(r1, m, side, limit) && IsTopLevels(r2, m, side, limit)
    ensures r1 == r2
  {
    TopLevelsPrefix(r1, r2, m, side, limit, |r1|);
  }

  /** Some element of a non-empty set (the next key the host's iteration yields). */
  method Pick(s: set<int>) returns (p: int)
    requires s != {}
    ensures p in s
  {
    assert exists q :: q in s by {
      if forall q :: q !in s {
        assert false;
      }
    }
    p :| p in s;
  }

  /** Lists the entries of `m`, in an order the model leaves open (the host's insertion order). */
  method Entries(m: map<int, int>) returns (es: seq<Level>)
    ensures EntriesOf(es, m)
  {
    var rest := m.Keys;
    es := [];
    while rest != {}
      invariant rest <= m.Keys
      invariant |es| + |rest| == |m|
      invariant DistinctPrices(es)
      invariant forall i :: 0 <= i < |es| ==> es[i].price in m && es[i].price !in rest && m[es[i].price] == es[i].qty
      invariant forall p :: p in m ==> p in rest || Level(p, m[p]) in es
      decreases rest
    {
      var p := Pick(rest);
      es := es + [Level(p, m[p])];
      rest := rest - {p};
    }
  }

  // ------------------------------------------------------------------
  // Cumulative quantities
  // ------------------------------------------------------------------

  /** The total quantity of `s`. */
  function QtySum(s: seq<Level>): int
  {
    if s == [] then 0 else QtySum(s[..|s| - 1]) + s[|s| - 1].qty
  }

  /** With non-negative quantities, running totals never decrease. */
  lemma {:induction false} QtySumMonotone(s: seq<Level>, i: nat, j: nat)
    requires i <= j <= |s|
    requires NonNegativeQuantities(s)
    ensures QtySum(s[..i]) <= QtySum(s[..j])
    decreases j
  {
    if i < j {
      QtySumMonotone(s, i, j - 1);
      assert s[..j][..j - 1] == s[..j - 1];
    }
  }

  /** With non-negative quantities, every running total lies between 0 and the grand total, in order. */
  lemma {:induction false} RunningTotalsOrdered(s: seq<Level>, i: nat, j: nat)
    requires i <= j < |s|
    requires NonNegativeQuantities(s)
    ensures 0 <= QtySum(s[..i + 1]) <= QtySum(s[..j + 1]) <= QtySum(s)
  {
    QtySumMonotone(s, 0, i + 1);
    QtySumMonotone(s, i + 1, j + 1);
    QtySumMonotone(s, j + 1, |s|);
    assert s[..0] == [];
    assert s[..|s|] == s;
  }

  /** Sorting and trimming keep quantities non-negative. */
  lemma {:induction false} TopRankNonNegative(s: seq<Level>, side: Side, limit: nat)
    requires NonNegativeQuantities(s)
    ensures NonNegativeQuantities(Top(Rank(side, s), limit))
  {
    var r := Rank(side, s);
    var t := Top(r, limit);
    forall k | 0 <= k < |t|
      ensures t[k].qty >= 0
    {
      assert t[k] == r[k];
      assert r[k] in multiset(s);
      var n :| 0 <= n < |s| && s[n] == r[k];
    }
  }
}

=== FILE: options.dfy ===
/** The optional value used wherever the source has `null`, `undefined` or `?.`. */
module Options {
  datatype Option<+T> = None | Some(value: T)
}

=== FILE: order_book.dfy ===
/**
 * The tabular order book of components/OrderBook.tsx: a ledger per side fed
 * by every published depth delta, the 100 ms render gate, and the snapshot
 * derived on each render (sorted, trimmed to 25 rows, with running totals),
 * with the best bid, best ask and spread.
 */
module OrderBook {
  import opened Options
  import opened Ledger
  import opened Throttle
  import BinanceSocket

  const RenderWindow := 100
  const RowLimit := 25

  /** One displayed row: a level and the cumulative quantity up to and including it. */
  datatype Row = Row(price: int, qty: int, total: int)

  /** The rows of one side and the largest total (the last row's), used to scale the bars. */
  datatype SideData = SideData(rows: seq<Row>, maxTotal: int)

  function LevelsOf(rows: seq<Row>): (r: seq<Level>)
    ensures |r| == |rows|
    ensures forall i :: 0 <= i < |rows| ==> r[i] == Level(rows[i].price, rows[i].qty)
  {
    seq(|rows|, i requires 0 <= i < |rows| => Level(rows[i].price, rows[i].qty))
  }

  /**
   * Sorts the entries by the side's comparator, keeps the first `limit`,
   * and attaches to each row the running total of the quantities so far.
   */
  method SortAndCumulate(entries: seq<Level>, side: Side, limit: nat) returns (d: SideData)
    ensures |d.rows| == Min(limit, |entries|)
    ensures LevelsOf(d.rows) == Top(Rank(side, entries), limit)
    ensures forall i :: 0 <= i < |d.rows| ==> d.rows[i].total == QtySum(LevelsOf(d.rows)[..i + 1])
    ensures d.maxTotal == QtySum(LevelsOf(d.rows))
    ensures d.maxTotal == (if d.rows == [] then 0 else d.rows[|d.rows| - 1].total)
    ensures NonNegativeQuantities(entries) ==>
      forall i, j :: 0 <= i <= j < |d.rows| ==> 0 <= d.rows[i].total <= d.rows[j].total <= d.maxTotal
  {
    var trimmed := Top(Rank(side, entries), limit);
    var rows: seq<Row> := [];
    var running := 0;
    var i := 0;
    while i < |trimmed|
      invariant 0 <= i <= |trimmed|
      invariant |rows| == i
      invariant running == QtySum(trimmed[..i])
      invariant forall k :: 0 <= k < i ==> rows[k] == Row(trimmed[k].price, trimmed[k].qty, QtySum(trimmed[..k + 1]))
    {
      assert trimmed[..i + 1][..i] == trimmed[..i];
      running := running + trimmed[i].qty;
      rows := rows + [Row(trimmed[i].price, trimmed[i].qty, running)];
      i := i + 1;
    }
    assert trimmed[..|trimmed|] == trimmed;
    d := SideData(rows, running);
    assert LevelsOf(d.rows) == trimmed;
    if NonNegativeQuantities(entries) {
      TopRankNonNegative(entries, side, limit);
      forall i, j | 0 <= i <= j < |d.rows|
        ensures 0 <= d.rows[i].total <= d.rows[j].total <= d.maxTotal
      {
        RunningTotalsOrdered(trimmed, i, j);
      }
    }
  }

  /** A best price: the first row's price, or 0 for an empty side. */
  function BestPrice(rows: seq<Row>): int
  {
    if rows == [] then 0 else rows[0].price
  }

  /**
   * On a side's best rows, the best price is 0 exactly for an empty side and
   * otherwise the best stored price: the highest bid or the lowest ask.
   */
  lemma {:induction false} BestPriceIsBest(rows: seq<Row>, m: map<int, int>, side: Side)
    requires IsTopLevels(LevelsOf(rows), m, side, RowLimit)
    ensures m == map[] ==> BestPrice(rows) == 0
    ensures m != map[] ==> BestPrice(rows) in m && forall p :: p in m ==> !Better(side, p, BestPrice(rows))
  {
    TopLevelsBest(LevelsOf(rows), m, side, RowLimit);
  }

  /** The spread rule: a best price of 0 counts as missing, and then the spread is 0. */
  function Spread(bestBid: int, bestAsk: int): (spread: int)
    ensures bestBid == 0 || bestAsk == 0 ==> spread == 0
    ensures bestBid != 0 && bestAsk != 0 ==> bestBid + spread == bestAsk
  {
    if bestAsk != 0 && bestBid != 0 then bestAsk - bestBid else 0
  }

  /** Scenario: an empty book given the bids 100 x 2 and 99 x 1 shows them in that order, with totals 2 and 3. */
  lemma {:induction false} TwoBidsScenario(es: seq<Level>)
    requires EntriesOf(es, Applied(map[], [Level(100, 2), Level(99, 1)]))
    ensures Top(Rank(Bids, es), RowLimit) == [Level(100, 2), Level(99, 1)]
    ensures QtySum(Top(Rank(Bids, es), RowLimit)[..1]) == 2 && QtySum(Top(Rank(Bids, es), RowLimit)) == 3
  {
    var m := Applied(map[], [Level(100, 2), Level(99, 1)]);
    assert [Level(100, 2), Level(99, 1)][..1] == [Level(100, 2)];
    assert [Level(100, 2)][..0] == [];
    assert Applied(map[], [Level(100, 2)]) == map[100 := 2];
    assert m == map[100 := 2, 99 := 1];
    var want := [Level(100, 2), Level(99, 1)];
    assert |m| == 2 by {
      assert m.Keys == {100, 99};
    }
    assert forall p :: p in m ==> Shown(want, p) by {
      assert want[0].price == 100 && want[1].price == 99;
    }
    assert IsTopLevels(want, m, Bids, RowLimit);
    TopOfRankedEntries(es, m, Bids, RowLimit);
    TopLevelsUnique(Top(Rank(Bids, es), RowLimit), want, m, Bids, RowLimit);
    assert want[..1] == [Level(100, 2)] && want[..1][..0] == [];
  }

  /** Scenario: a price set and then deleted is absent afterwards. */
  lemma SetThenDeleteScenario(m: map<int, int>)
    ensures 100 !in Applied(Applied(m, [Level(100, 2)]), [Level(100, 0)])
  {
    AppliedAt(Applied(m, [Level(100, 2)]), [Level(100, 0)], 100);
  }

  /**
   * The component: the ledger (`bookRef`), the render gate (`lastRenderRef`,
   * `timerRef`) and the number of re-renders requested (`forceTick`).
   */
  class OrderBookView {
    var bids: map<int, int>
    var asks: map<int, int>
    var lastRender: int
    var timer: Option<int>
    var renders: nat

    ghost predicate Valid()
      reads this
    {
      NoZeroLevels(bids) && NoZeroLevels(asks) && Bounded(GateOf(), RenderWindow)
    }

    function GateOf(): Gate
      reads this
    {
      Gate(lastRender, timer, renders)
    }

    constructor ()
      ensures Valid()
      ensures bids == map[] && asks == map[]
      ensures GateOf() == Gate(0, None, 0)
    {
      bids, asks := map[], map[];
      lastRender, timer, renders := 0, None, 0;
    }

    /** Applies the pairs of `levels` to one side in order: quantity 0 deletes, anything else sets. */
    method ApplyDelta(side: Side, levels: seq<Level>)
      modifies this
      ensures side == Bids ==> bids == Applied(old(bids), levels) && asks == old(asks)
      ensures side == Asks ==> asks == Applied(old(asks), levels) && bids == old(bids)
      ensures GateOf() == old(GateOf())
    {
      var i := 0;
      while i < |levels|
        invariant 0 <= i <= |levels|
        invariant side == Bids ==> bids == Applied(old(bids), levels[..i]) && asks == old(asks)
        invariant side == Asks ==> asks == Applied(old(asks), levels[..i]) && bids == old(bids)
        invariant GateOf() == old(GateOf())
      {
        var price, qty := levels[i].price, levels[i].qty;
        if side == Bids {
          if qty == 0 {
            bids := bids - {price};
          } else {
            bids := bids[price := qty];
          }
        } else {
          if qty == 0 {
            asks := asks - {price};
          } else {
            asks := asks[price := qty];
          }
        }
        assert levels[..i + 1][..i] == levels[..i];
        i := i + 1;
      }
      assert levels[..|levels|] == levels;
    }

    /**
     * A published delta: both sides are updated at once, then the view
     * re-renders now or (re)arms its single deferred render.
     */
    method OnDelta(delta: BinanceSocket.OrderBookDelta, now: int)
      requires Valid()
      modifies this
      ensures Valid()
      ensures bids == Applied(old(bids), delta.bids) && asks == Applied(old(asks), delta.asks)
      ensures GateOf() == Arrive(old(GateOf()), now, RenderWindow)
    {
      ApplyDelta(Bids, delta.bids);
      ApplyDelta(Asks, delta.asks);
      AppliedKeepsNoZeroLevels(old(bids), delta.bids);
      AppliedKeepsNoZeroLevels(old(asks), delta.asks);
      var since := now - lastRender;
      if since >= RenderWindow {
        lastRender := now;
        renders := renders + 1;
      } else {
        timer := Some(now + (RenderWindow - since));
      }
    }

    /** The deferred render fires at `now`. */
    method OnRenderTimer(now: int)
      requires Valid() && timer.Some?
      modifies this
      ensures Valid()
      ensures bids == old(bids) && asks == old(asks)
      ensures GateOf() == Fire(old(GateOf()), now)
    {
      lastRender := now;
      renders := renders + 1;
      timer := None;
    }

    /** Unmount: the pending deferred render is cancelled. */
    method Teardown()
      requires Valid()
      modifies this
      ensures Valid()
      ensures bids == old(bids) && asks == old(asks)
      ensures GateOf() == Cancel(old(GateOf()))
    {
      timer := None;
    }

    /**
     * What a render shows: each side's 25 best levels with running totals,
     * the best bid (highest stored bid price), the best ask (lowest stored
     * ask price), and the spread between them.
     */
    method Snapshot() returns (bidsData: SideData, asksData: SideData, bestBid: int, bestAsk: int, spread: int)
      ensures IsTopLevels(LevelsOf(bidsData.rows), bids, Bids, RowLimit)
      ensures IsTopLevels(LevelsOf(asksData.rows), asks, Asks, RowLimit)
      ensures forall i :: 0 <= i < |bidsData.rows| ==> bidsData.rows[i].total == QtySum(LevelsOf(bidsData.rows)[..i + 1])
      ensures forall i :: 0 <= i < |asksData.rows| ==> asksData.rows[i].total == QtySum(LevelsOf(asksData.rows)[..i + 1])
      ensures bidsData.maxTotal == QtySum(LevelsOf(bidsData.rows)) && asksData.maxTotal == QtySum(LevelsOf(asksData.rows))
      ensures bids == map[] ==> bestBid == 0
      ensures bids != map[] ==> bestBid in bids && forall p :: p in bids ==> p <= bestBid
      ensures asks == map[] ==> bestAsk == 0
      ensures asks != map[] ==> bestAsk in asks && forall p :: p in asks ==> bestAsk <= p
      ensures spread == Spread(bestBid, bestAsk)
      ensures bids == map[] || asks == map[] ==> spread == 0
    {
      var bidEntries := Entries(bids);
      bidsData := SortAndCumulate(bidEntries, Bids, RowLimit);
      var askEntries := Entries(asks);
      asksData := SortAndCumulate(askEntries, Asks, RowLimit);
      TopOfRankedEntries(bidEntries, bids, Bids, RowLimit);
      TopOfRankedEntries(askEntries, asks, Asks, RowLimit);
      BestPriceIsBest(bidsData.rows, bids, Bids);
      BestPriceIsBest(asksData.rows, asks, Asks);
      bestBid := BestPrice(bidsData.rows);
      bestAsk := BestPrice(asksData.rows);
      spread := if bestAsk != 0 && bestBid != 0 then bestAsk - bestBid else 0;
    }
  }
}

=== FILE: recent_trades.dfy ===
/**
 * The trade tape of components/RecentTrades.tsx: the newest trades first,
 * at most 50 of them, without repeating a trade id, plus the id of the
 * trade to highlight.
 */
module RecentTrades {
  import opened Options
  import opened Ledger
  import opened BinanceSocket

  const Capacity := 50

  /** Some trade on the tape carries `id` (`prev.find(p => p.id === id)`). */
  predicate HasId(tape: seq<TradeTick>, id: int)
  {
    exists k :: 0 <= k < |tape| && tape[k].id == id
  }

  ghost predicate DistinctIds(tape: seq<TradeTick>)
  {
    forall i, j :: 0 <= i < j < |tape| ==> tape[i].id != tape[j].id
  }

  /**
   * The `setTrades` updater: a trade whose id is already on the tape leaves
   * it as it is; any other trade goes in front. The tape is then cut to 50.
   */
  function Record(prev: seq<TradeTick>, t: TradeTick): (next: seq<TradeTick>)
    ensures |next| <= Capacity
    ensures HasId(prev, t.id) ==> next == prev[..Min(Capacity, |prev|)]
    ensures HasId(prev, t.id) && |prev| <= Capacity ==> next == prev
    ensures !HasId(prev, t.id) ==>
      && |next| == Min(Capacity, |prev| + 1)
      && next[0] == t
      && next[1..] == prev[..Min(Capacity - 1, |prev|)]
  {
    var grown := if HasId(prev, t.id) then prev else [t] + prev;
    grown[..Min(Capacity, |grown|)]
  }

  /** A tape without repeated ids keeps that property when a trade is recorded. */
  lemma {:induction false} RecordKeepsDistinct(prev: seq<TradeTick>, t: TradeTick)
    requires DistinctIds(prev)
    ensures DistinctIds(Record(prev, t))
  {
    var next := Record(prev, t);
    if !HasId(prev, t.id) {
      forall i, j | 0 <= i < j < |next|
        ensures next[i].id != next[j].id
      {
        assert next[j] == prev[j - 1];
        if i > 0 {
          assert next[i] == prev[i - 1];
        }
      }
    }
  }

  /** On a tape of at most 50 trades, the trade just recorded is on the tape. */
  lemma RecordedIsShown(prev: seq<TradeTick>, t: TradeTick)
    requires |prev| <= Capacity
    ensures HasId(Record(prev, t), t.id)
  {
    if !HasId(prev, t.id) {
      assert Record(prev, t)[0].id == t.id;
    }
  }

  /** Recording the same trade twice in a row gives the tape of recording it once. */
  lemma RecordTwice(prev: seq<TradeTick>, t: TradeTick)
    requires |prev| <= Capacity
    ensures Record(Record(prev, t), t) == Record(prev, t)
  {
    RecordedIsShown(prev, t);
  }

  /** The tape after a run of trades arrives, oldest first, starting from an empty tape. */
  function Tape(ticks: seq<TradeTick>): seq<TradeTick>
    decreases |ticks|
  {
    if ticks == [] then [] else Record(Tape(ticks[..|ticks| - 1]), ticks[|ticks| - 1])
  }

  /**
   * Whatever the arrival sequence, the tape holds at most 50 trades, never
   * repeats an id, and shows the latest trade.
   */
  lemma {:induction false} TapeInvariant(ticks: seq<TradeTick>)
    ensures |Tape(ticks)| <= Capacity
    ensures DistinctIds(Tape(ticks))
    ensures ticks != [] ==> HasId(Tape(ticks), ticks[|ticks| - 1].id)
    decreases |ticks|
  {
    if ticks != [] {
      var prefix := ticks[..|ticks| - 1];
      TapeInvariant(prefix);
      RecordKeepsDistinct(Tape(prefix), ticks[|ticks| - 1]);
      RecordedIsShown(Tape(prefix), ticks[|ticks| - 1]);
    }
  }

  /** The component's state: the tape (`trades`) and the highlighted trade (`flashId`). */
  class TradeTape {
    var trades: seq<TradeTick>
    var flashId: Option<int>

    ghost predicate Valid()
      reads this
    {
      |trades| <= Capacity && DistinctIds(trades)
    }

    constructor ()
      ensures Valid()
      ensures trades == [] && flashId == None
    {
      trades, flashId := [], None;
    }

    /** A new latest trade: the tape records it and the highlight moves to it, duplicates included. */
    method OnTrade(t: TradeTick)
      requires Valid()
      modifies this
      ensures Valid()
      ensures trades == Record(old(trades), t)
      ensures flashId == Some(t.id)
      ensures HasId(trades, t.id)
    {
      RecordKeepsDistinct(trades, t);
      RecordedIsShown(trades, t);
      trades := Record(trades, t);
      flashId := Some(t.id);
    }
  }
}

=== FILE: throttle.dfy ===
/**
 * The render gate of the two book views (components/OrderBook.tsx with a
 * 100 ms window, components/DepthVisualizer.tsx with 120 ms). Every delta is
 * applied to the ledger at once; only the re-render is rate-limited. Times
 * are milliseconds of the host clock, passed in as `now`.
 */
module Throttle {
  import opened Options

  /**
   * `lastRender`: when the view last re-rendered; `timer`: the deadline of
   * the one pending deferred re-render, if any; `renders`: how many
   * re-renders have been requested so far.
   */
  datatype Gate = Gate(lastRender: int, timer: Option<int>, renders: nat)

  /** The staleness bound: a pending deadline is never more than one window after the last render. */
  ghost predicate Bounded(g: Gate, window: int)
  {
    g.timer.Some? ==> g.timer.value <= g.lastRender + window
  }

  /**
   * A delta arrives at `now`: at least one window since the last render
   * re-renders at once; otherwise the pending timer is replaced by one that
   * fires when the window closes.
   */
  function Arrive(g: Gate, now: int, window: int): (r: Gate)
    ensures r.renders == g.renders + 1 <==> now - g.lastRender >= window
    ensures r.renders == g.renders + 1 ==> r.lastRender == now && r.timer == g.timer
    ensures now - g.lastRender < window ==> r == Gate(g.lastRender, Some(g.lastRender + window), g.renders)
    ensures now - g.lastRender < window && g.lastRender <= now ==> now < r.timer.value <= now + window
  {
    var since := now - g.lastRender;
    if since >= window then Gate(now, g.timer, g.renders + 1)
    else Gate(g.lastRender, Some(now + (window - since)), g.renders)
  }

  /** The pending timer fires at `now`: the view re-renders and records `now`. */
  function Fire(g: Gate, now: int): (r: Gate)
    ensures g.timer.None? ==> r == g
    ensures g.timer.Some? ==> r.lastRender == now && r.timer.None? && r.renders == g.renders + 1
  {
    if g.timer.None? then g else Gate(now, None, g.renders + 1)
  }

  /** Unmounting the view clears the pending timer. */
  function Cancel(g: Gate): (r: Gate)
    ensures r.timer.None? && r.lastRender == g.lastRender && r.renders == g.renders
  {
    g.(timer := None)
  }

  /** The gate after deltas arrive at each of `times`, in order. */
  function ArriveAll(g: Gate, times: seq<int>, window: int): Gate
    decreases |times|
  {
    if times == [] then g else Arrive(ArriveAll(g, times[..|times| - 1], window), times[|times| - 1], window)
  }

  /** Every step keeps the staleness bound, whatever the order of arrivals and firings. */
  lemma ArriveKeepsBounded(g: Gate, now: int, window: int)
    requires window >= 0 && Bounded(g, window)
    ensures Bounded(Arrive(g, now, window), window)
  {
  }

  lemma FireKeepsBounded(g: Gate, now: int, window: int)
    requires Bounded(g, window)
    ensures Bounded(Fire(g, now), window) && Bounded(Cancel(g), window)
  {
  }

  lemma {:induction false} ArriveAllKeepsBounded(g: Gate, times: seq<int>, window: int)
    requires window >= 0 && Bounded(g, window)
    ensures Bounded(ArriveAll(g, times, window), window)
    decreases |times|
  {
    if times != [] {
      ArriveAllKeepsBounded(g, times[..|times| - 1], window);
      ArriveKeepsBounded(ArriveAll(g, times[..|times| - 1], window), times[|times| - 1], window);
    }
  }

  /**
   * A burst of deltas that all arrive within one window of the last render
   * causes no immediate render and leaves exactly one timer, due when the
   * window closes (not pushed back by later arrivals); its firing is the
   * burst's single render.
   */
  lemma {:induction false} BurstCollapses(g: Gate, times: seq<int>, window: int, fireAt: int)
    requires times != []
    requires forall k :: 0 <= k < |times| ==> times[k] - g.lastRender < window
    ensures ArriveAll(g, times, window) == Gate(g.lastRender, Some(g.lastRender + window), g.renders)
    ensures Fire(ArriveAll(g, times, window), fireAt) == Gate(fireAt, None, g.renders + 1)
    decreases |times|
  {
    if |times| > 1 {
      BurstCollapses(g, times[..|times| - 1], window, fireAt);
    }
  }
}
